=== FILE: README.md ===
# Renderer adapter state machines

This project models the control logic of two rendering backends of a
composite 2D viewer, the parts that plug into the viewer's render dispatcher:

- `Canvas2DSimpleRenderer` draws immediately onto a 2D canvas context. It keeps
  the canvas size, the viewport and the last payload (rectangles and circles).
  Size and viewport changes ask a render synchronization context for a render.
  `render` stores the payload and draws at once.
- `PixijsRendererRenderer` draws ellipses with PIXI. It keeps a size, a viewport,
  a visibility flag and an optional payload. `setVisibility`, `setSize`,
  `setViewport` and `render` end in a guarded `scheduleRender`, and so does
  `renderPatches` when a payload is present (without one it returns at once).
  That call hands the draw callback to the render scheduler only when a payload
  is present and the renderer is visible.

Each adapter is an immutable record (`Renderer`). Every operation is a pure
function that returns the new record and the trace of effects it emitted
(`Step`). The effects are the calls the adapter makes into the outside world, in
order: registering with or scheduling on the synchronization context, writing
the element style, resizing, and each draw call. Pixel arithmetic is not
modelled. A draw command carries the shape and the viewport it is projected
through. Each adapter's draw trace has a position-by-position specification
(`IsFrame`). A uniqueness lemma shows that this specification is complete. A
call datatype and a `Run` function fold whole call sequences, so that properties
spanning several calls can be stated and proved.

Files: `wrappers.dfy` (Option, Result), `viewer_types.dfy` (geometry and style
values), `traces.dfy` (counting trace entries), `canvas2d.dfy`
(module `Canvas2DSimple`), `pixijs.dfy` (module `Pixijs`).

The two adapters draw at different times. The PIXI adapter draws only from the
callback it hands to the scheduler
(examples/react-host/src/renderers/PixijsRenderer.ts:44). The canvas adapter's
`render` calls `renderInt` directly
(src/renderers/Canvas2DSimpleRenderer.ts:73). So `Canvas2DSimple.Render` emits
the frame itself and never a render request.

## Model

| member | source | states |
|---|---|---|
| `Canvas2DSimple.Create` | src/renderers/Canvas2DSimpleRenderer.ts:25-41 | construction fails, with the "context is null" error, exactly when no 2D context is available; otherwise it starts from size 0×0, viewport at (0,0) with zoom 1 and no payload, and emits exactly two effects: the composite-mode write, then the registration with the synchronization context |
| `Canvas2DSimple.SetVisibility` | src/renderers/Canvas2DSimpleRenderer.ts:43-47 | fails with the "no style" error exactly for a canvas without a style (an offscreen canvas); otherwise it leaves the adapter unchanged and emits a single style write, `visible` exactly when the flag is true |
| `Canvas2DSimple.SetSize` | src/renderers/Canvas2DSimpleRenderer.ts:50-56 | the stored canvas size becomes the given width and height; viewport, payload and canvas are unchanged; exactly two effects are emitted: the canvas element is resized, then one render is requested; the adapter itself issues no draw command |
| `Canvas2DSimple.SetViewport` | src/renderers/Canvas2DSimpleRenderer.ts:58-61 | the stored viewport equals the argument; size, payload and canvas are unchanged; the only effect is one render request; the adapter itself issues no draw command |
| `Canvas2DSimple.Render` | src/renderers/Canvas2DSimpleRenderer.ts:65-74 | the payload becomes the argument, size and viewport are unchanged, and the emitted effects are exactly the frame for the old size and viewport and the new payload; no render request is made, and the result does not depend on the time argument |
| `Canvas2DSimple.RectCommands` | src/renderers/Canvas2DSimpleRenderer.ts:84-97 | for each rectangle in order, one fill-style set to its colour followed by one `fillRect` of it; nothing else |
| `Canvas2DSimple.ArcCommands` | src/renderers/Canvas2DSimpleRenderer.ts:102-107 | for each circle in order, one `moveTo` and one full arc of radius 10 around it; nothing else |
| `Canvas2DSimple.CircleCommands` | src/renderers/Canvas2DSimpleRenderer.ts:99-110 | without a circle list nothing is emitted; with one, a single path is begun, each circle contributes a `moveTo` and an arc in order, and the path is filled once in black at the end |
| `Canvas2DSimple.RenderInt` | src/renderers/Canvas2DSimpleRenderer.ts:76-121 | the frame starts with one clear of (0, 0, width, height) from the current canvas size; with no payload that clear is the only command; with a payload, one fill per rectangle follows in payload order; if circles are present (even an empty list), one `beginPath`, a `moveTo` and an arc per circle, then a black fill style and one `fill` follow; every entry is a draw command |
| `Canvas2DSimple.FrameIsUnique` | src/renderers/Canvas2DSimpleRenderer.ts:76-111 | the positional frame description fixes every command, so it specifies `renderInt` completely |
| `Canvas2DSimple.FrameFillsPayloadRectangles` | src/renderers/Canvas2DSimpleRenderer.ts:84-97 | reading the filled rectangles back out of a frame gives exactly the payload's rectangles in order, and none without a payload |
| `Canvas2DSimple.Apply` | src/renderers/Canvas2DSimpleRenderer.ts:43-74 | a single call fails exactly when it is `setVisibility` on a canvas without a style; `setVisibility` otherwise leaves the state unchanged, and a size, viewport or `render` call changes exactly the stored size, viewport or payload to the argument; a successful `setVisibility` emits exactly its style write, a size change exactly the canvas resize and then one render request, a viewport change exactly one render request, and `render` exactly the frame for the current size and viewport and the new payload; so only `render` draws |
| `Canvas2DSimple.RunFailsOnlyWithoutStyle` | src/renderers/Canvas2DSimpleRenderer.ts:43-47 | a sequence of calls throws exactly when the canvas has no style and the sequence contains a `setVisibility` |
| `Canvas2DSimple.RunCountsRequestsAndFrames` | src/renderers/Canvas2DSimpleRenderer.ts:50-74 | across a sequence of calls, the render requests are one per size or viewport change, and the frames drawn on the spot are one per `render` call |
| `ViewerTypes.StyleFor` | src/renderers/Canvas2DSimpleRenderer.ts:45 | the style value is `visible` exactly when the flag is true, `collapse` otherwise |
| `Pixijs.ScheduleRender` | examples/react-host/src/renderers/PixijsRenderer.ts:43-45 | the draw callback reaches the scheduler once when a payload is present and the adapter is visible, and not otherwise; nothing else is emitted |
| `Pixijs.Create` | examples/react-host/src/renderers/PixijsRenderer.ts:22-25 | the adapter starts with size 0×0, viewport at (0,0) with zoom 1, visible, and no payload, so it is not ready to schedule |
| `Pixijs.SetVisibility` | examples/react-host/src/renderers/PixijsRenderer.ts:48-52 | the flag becomes the argument; size, viewport and payload are unchanged; the first effect is the style write (`visible` exactly when the flag is true) and every later effect is a scheduling; it schedules exactly once when made visible while a payload exists, and not otherwise |
| `Pixijs.SetSize` | examples/react-host/src/renderers/PixijsRenderer.ts:54-58 | the stored size becomes the given width and height; the PIXI renderer is resized first and every later effect is a scheduling; everything else is unchanged; it schedules once exactly when a payload is present and the adapter is visible |
| `Pixijs.SetViewport` | examples/react-host/src/renderers/PixijsRenderer.ts:60-63 | the stored viewport equals the argument; everything else is unchanged; it schedules once exactly when a payload is present and the adapter is visible, and emits nothing else |
| `Pixijs.Render` | examples/react-host/src/renderers/PixijsRenderer.ts:65-68 | the payload becomes the argument; size, viewport and visibility are unchanged; it schedules exactly once if visible and not at all if invisible |
| `Pixijs.RenderPatches` | examples/react-host/src/renderers/PixijsRenderer.ts:70-75 | without a payload it is a complete no-op (same state, no effects); with one, the payload becomes the patched payload and it schedules once exactly when visible; size, viewport and visibility never change |
| `Pixijs.PickObjects` | examples/react-host/src/renderers/PixijsRenderer.ts:107-109 | the answer is empty exactly when the adapter is invisible, and `["a", "b"]` when visible, whatever the options |
| `Pixijs.EllipseCommandsAt` | examples/react-host/src/renderers/PixijsRenderer.ts:84-102 | the i-th ellipse is drawn at positions 3i to 3i+2 as a fill begun in its colour, its ellipse, and an end of the fill |
| `Pixijs.RenderInternal` | examples/react-host/src/renderers/PixijsRenderer.ts:77-105 | with no payload it emits no command at all; with one it clears the graphics, draws each ellipse in order, and renders the stage once at the end; it never schedules |
| `Pixijs.FrameIsUnique` | examples/react-host/src/renderers/PixijsRenderer.ts:77-105 | the positional frame description fixes every command, so it specifies `renderInternal` completely |
| `Pixijs.Apply` | examples/react-host/src/renderers/PixijsRenderer.ts:43-75 | `setVisibility` first writes the matching style and `setSize` first resizes the PIXI renderer; any single call schedules at most once, and it schedules exactly when the state it leaves has a payload and is visible; a payload is present afterwards exactly when one was before or the call is `render`; each call changes exactly its own field (the flag, the size, the viewport, the payload, or the payload patched by `apply` when one exists); no control call issues a draw command |
| `Pixijs.NoScheduleBeforeFirstRender` | examples/react-host/src/renderers/PixijsRenderer.ts:43-75 | starting without a payload, any sequence of calls without a `render` leaves the payload absent and never reaches the scheduler, so patches never define the initial state and size or viewport changes before the first `render` never schedule |
| `Pixijs.PayloadPresentAfterRun` | examples/react-host/src/renderers/PixijsRenderer.ts:65-75 | after a sequence of calls a payload is present exactly when one was present before or the sequence contains a `render` |
| `Pixijs.ScheduledAtMostOncePerCall` | examples/react-host/src/renderers/PixijsRenderer.ts:43-45 | a sequence of calls reaches the scheduler at most once per call |
| `Pixijs.PickingFollowsLastVisibility` | examples/react-host/src/renderers/PixijsRenderer.ts:107-109 | after any sequence of calls, visibility is the flag of the last `setVisibility` (or the earlier value if there is none), and picking answers `["a", "b"]` or empty accordingly |

## Left out

- The render dispatcher, the controller factory, patch application, the render
  scheduler, the synchronization context (`InstantRenderSyncContext`) and the
  orchestrated executor pool are not part of this model. They lie outside the
  two adapters modelled here. Handing a callback to one of them is a single trace entry
  (`SyncRegistered`, `RenderRequested`, `Scheduled`).
- Pixel coordinates (`~~(offset + coordinate * zoom)`) and PIXI's colour
  conversion (`/ 256`, `rgb2hex`) are floating-point arithmetic. Draw commands
  carry the shape, its colour and the viewport instead.
- The foreign calls themselves are recorded only as trace entries: `fillRect`,
  `arc`, `drawEllipse`, `renderer.render`, `renderer.resize`, the canvas
  element's `width`/`height`, and `style.visibility`. The numeric conversion the
  canvas element applies to its `width`/`height` is not modelled.
- The PIXI constructor's application setup is left out: `skipHello`, creating
  the application and graphics, `appendChild`, `addChild`. Only its starting
  state is modelled.
- `dispose` does nothing in either adapter. It is not modelled.
- Canvas2DSimple.Create: the canvas's `getContext("2d")` answer is the parameter
  `hasContext`. `hasPropertyInChain(canvas, "style")` is the canvas kind: an
  HTML canvas has a style, an offscreen canvas does not.
- Pixijs.PickObjects: the promise is not modelled. The answer is returned directly.
- Pixijs.RenderPatches: the library's `applyPatches` is the parameter `apply`,
  modelled as a function that returns the patched payload. The source calls it
  for its in-place effect and ignores its return value. So in the source the
  patched object is also the object the host passed to `render`. That aliasing
  is not modelled.
- Both adapters keep the host's payload object by reference
  (src/renderers/Canvas2DSimpleRenderer.ts:72,
  examples/react-host/src/renderers/PixijsRenderer.ts:66) and may draw it at a
  later tick: the PIXI adapter from the scheduled callback
  (examples/react-host/src/renderers/PixijsRenderer.ts:44, 77), the canvas
  adapter when the synchronization context runs `renderInt` after `setSize` or
  `setViewport`. The model stores payloads as values, so a change the host makes
  to the object in between is not represented.
- `setViewport` stores a shallow copy (`{ ...viewport }`,
  src/renderers/Canvas2DSimpleRenderer.ts:59,
  examples/react-host/src/renderers/PixijsRenderer.ts:61). The nested `position`
  object stays shared with the caller. The model stores viewports as values, so
  a later change the caller makes to that position is not represented.
- The unused field `animationFrameHandle` of the canvas adapter is not modelled.

=== FILE: canvas2d.dfy ===
/** The immediate-mode canvas adapter `Canvas2DSimpleRenderer`
    (src/renderers/Canvas2DSimpleRenderer.ts).

    The adapter keeps the canvas size, the viewport and the last payload.
    Size and viewport changes ask the synchronization context for a render;
    `render` stores the payload and draws at once. Every call into the outside
    world (the synchronization context, the 2D context, the canvas element) is
    recorded as an `Effect` in the order the adapter makes it; pixel arithmetic
    is left abstract, so a draw command carries the shape and the viewport it is
    projected through. */
module Canvas2DSimple {
  import opened Wrappers
  import opened ViewerTypes
  import opened Traces

  datatype RectangleObject = RectangleObject(x: real, y: real, width: real, height: real, color: Color)

  datatype CircleObject = CircleObject(x: real, y: real)

  /** Both collections are optional. A collection is drawn whenever it is
      present, an empty one included (an empty array is truthy). */
  datatype Payload = Payload(rectangles: Option<seq<RectangleObject>>, circles: Option<seq<CircleObject>>)

  /** The drawing surface: only an HTML canvas element has a `style`. */
  datatype CanvasKind = HtmlCanvas | OffscreenCanvas

  datatype FillStyle = Rgb(color: Color) | Black

  datatype Effect =
      /** `globalCompositeOperation = "destination-over"` at construction */
    | CompositeDestinationOver
      /** the synchronization context is handed `renderInt` */
    | SyncRegistered
      /** `synchronizationContext.scheduleRender()` */
    | RenderRequested
      /** the canvas element's own `width`/`height` are assigned */
    | CanvasResized(width: real, height: real)
      /** `canvas.style.visibility` is assigned */
    | StyleVisibility(visibility: Visibility)
      // Calls on the 2D context:
    | ClearRect(x: real, y: real, width: real, height: real)
    | SetFillStyle(style: FillStyle)
    | FillRect(rect: RectangleObject, view: Viewport)
    | BeginPath
    | MoveTo(center: CircleObject, view: Viewport)
    | Arc(circle: CircleObject, view: Viewport, radius: real)
    | Fill
  {
    /** True of the calls made on the 2D context while drawing a frame. */
    predicate IsDrawCommand() {
      ClearRect? || SetFillStyle? || FillRect? || BeginPath? || MoveTo? || Arc? || Fill?
    }
  }

  /** The errors the adapter throws. */
  datatype CanvasError =
    | ContextIsNull   // "context is null"
    | NoStyle         // "Cannot change visibility, no style"

  datatype Renderer = Renderer(canvas: CanvasKind, canvasSize: Size, viewport: Viewport, payload: Option<Payload>)

  /** The adapter after a call, with the effects the call emitted. */
  datatype Step = Step(renderer: Renderer, effects: seq<Effect>)

  /** Every circle is drawn as a full arc of this radius. */
  const ArcRadius: real := 10.0

  // ---------------------------------------------------------------------------
  // Construction and the control surface
  // ---------------------------------------------------------------------------

  /** The constructor: `hasContext` says whether `getContext("2d")` returned a
      context. Without one it throws; otherwise it sets the composite mode and
      registers `renderInt` with the synchronization context, starting from an
      empty size, the identity viewport and no payload. */
  function Create(canvas: CanvasKind, hasContext: bool): (r: Result<Step, CanvasError>)
    ensures r.Failure? <==> !hasContext
    ensures r.Failure? ==> r.error == ContextIsNull
    ensures r.Success? ==>
      && r.value.renderer.canvas == canvas
      && r.value.renderer.canvasSize.width == 0.0 && r.value.renderer.canvasSize.height == 0.0
      && r.value.renderer.viewport.position.x == 0.0 && r.value.renderer.viewport.position.y == 0.0
      && r.value.renderer.viewport.zoom == 1.0
      && r.value.renderer.payload.None?
      && Count(r.value.effects, SyncRegistered) == 1
      && RenderRequested !in r.value.effects
    ensures r.Success? ==>
      |r.value.effects| == 2 && r.value.effects[0] == CompositeDestinationOver && r.value.effects[1] == SyncRegistered
  {
    if !hasContext then Failure(ContextIsNull)
    else Success(Step(Renderer(canvas, EmptySize, IdentityViewport, None), [CompositeDestinationOver, SyncRegistered]))
  }

  /** `setVisibility`: writes `visible`/`collapse` into the canvas style, and
      throws when the canvas has no style. It neither changes the adapter nor
      asks for a render. */
  function SetVisibility(s: Renderer, visible: bool): (r: Result<Step, CanvasError>)
    ensures r.Failure? <==> s.canvas == OffscreenCanvas
    ensures r.Failure? ==> r.error == NoStyle
    ensures r.Success? ==> r.value.renderer == s
    ensures r.Success? ==> |r.value.effects| == 1 && r.value.effects[0].StyleVisibility?
    ensures r.Success? ==> (r.value.effects[0].visibility == Visible <==> visible)
  {
    if s.canvas.HtmlCanvas? then Success(Step(s, [StyleVisibility(StyleFor(visible))]))
    else Failure(NoStyle)
  }

  /** `setSize`: resizes the canvas element, stores the new size and asks for
      exactly one render, after the size is stored. */
  function SetSize(s: Renderer, size: Rectangle): (r: Step)
    ensures r.renderer.canvasSize.width == size.width && r.renderer.canvasSize.height == size.height
    ensures r.renderer.canvas == s.canvas && r.renderer.viewport == s.viewport && r.renderer.payload == s.payload
    ensures Count(r.effects, RenderRequested) == 1 && r.effects[|r.effects| - 1] == RenderRequested
    ensures |r.effects| == 2 && r.effects[0] == CanvasResized(size.width, size.height)
    ensures forall e | e in r.effects :: !e.IsDrawCommand()
  {
    Step(s.(canvasSize := SizeOf(size)), [CanvasResized(size.width, size.height), RenderRequested])
  }

  /** `setViewport`: stores a shallow copy of the viewport and asks for exactly one render. */
  function SetViewport(s: Renderer, viewport: Viewport): (r: Step)
    ensures r.renderer.viewport == viewport
    ensures r.renderer.canvas == s.canvas && r.renderer.canvasSize == s.canvasSize && r.renderer.payload == s.payload
    ensures Count(r.effects, RenderRequested) == 1 && |r.effects| == 1
    ensures forall e | e in r.effects :: !e.IsDrawCommand()
  {
    Step(s.(viewport := viewport), [RenderRequested])
  }

  /** `render`: replaces the payload and draws the frame at once, without going
      through the synchronization context. `time` is not used: the contract
      fixes the whole result from `s` and `payload` alone. */
  function Render(s: Renderer, time: real, payload: Payload): (r: Step)
    ensures r.renderer.payload == Some(payload)
    ensures r.renderer.canvas == s.canvas && r.renderer.canvasSize == s.canvasSize && r.renderer.viewport == s.viewport
    ensures IsFrame(r.effects, s.canvasSize, s.viewport, Some(payload))
    ensures RenderRequested !in r.effects
  {
    var next := s.(payload := Some(payload));
    Step(next, RenderInt(next))
  }

  // ---------------------------------------------------------------------------
  // Drawing a frame
  // ---------------------------------------------------------------------------

  /** The rectangles drawn for a payload: none when the field is absent. */
  function RectsOf(p: Payload): seq<RectangleObject> {
    p.rectangles.GetOr([])
  }

  /** Number of commands in a frame. */
  function FrameLength(payload: Option<Payload>): (n: nat)
    ensures n >= 1
  {
    match payload
    case None => 1
    case Some(p) =>
      1 + 2 * |RectsOf(p)| + (match p.circles case None => 0 case Some(cs) => 2 * |cs| + 3)
  }

  /** From index `k` on, `cmds` sets the colour of and fills each rectangle of `rs`, in order. */
  ghost predicate RectsAt(cmds: seq<Effect>, k: nat, rs: seq<RectangleObject>, view: Viewport) {
    && k + 2 * |rs| <= |cmds|
    && forall i :: 0 <= i < |rs| ==>
         cmds[k + 2 * i] == SetFillStyle(Rgb(rs[i].color)) && cmds[k + 2 * i + 1] == FillRect(rs[i], view)
  }

  /** From index `k` on, when circles are present, `cmds` opens one path, moves
      to and arcs around each circle in order, then fills the path in black once. */
  ghost predicate CirclesAt(cmds: seq<Effect>, k: nat, circles: Option<seq<CircleObject>>, view: Viewport) {
    match circles
    case None => true
    case Some(cs) =>
      && k + 2 * |cs| + 3 <= |cmds|
      && cmds[k] == BeginPath
      && (forall j :: 0 <= j < |cs| ==>
            cmds[k + 1 + 2 * j] == MoveTo(cs[j], view) && cmds[k + 2 + 2 * j] == Arc(cs[j], view, ArcRadius))
      && cmds[k + 1 + 2 * |cs|] == SetFillStyle(Black)
      && cmds[k + 2 + 2 * |cs|] == Fill
  }

  /** The shape of a frame, position by position: one clear of the whole canvas
      size; with a payload, the rectangle section and then the circle section;
      nothing else. */
  ghost predicate IsFrame(cmds: seq<Effect>, size: Size, view: Viewport, payload: Option<Payload>) {
    && |cmds| == FrameLength(payload)
    && cmds[0] == ClearRect(0.0, 0.0, size.width, size.height)
    && (payload.Some? ==>
          && RectsAt(cmds, 1, RectsOf(payload.value), view)
          && CirclesAt(cmds, 1 + 2 * |RectsOf(payload.value)|, payload.value.circles, view))
  }

  function RectCommands(rs: seq<RectangleObject>, view: Viewport): (r: seq<Effect>)
    ensures |r| == 2 * |rs|
    ensures forall i :: 0 <= i < |rs| ==>
              r[2 * i] == SetFillStyle(Rgb(rs[i].color)) && r[2 * i + 1] == FillRect(rs[i], view)
    ensures forall e | e in r :: e.SetFillStyle? || e.FillRect?
  {
    if |rs| == 0 then []
    else [SetFillStyle(Rgb(rs[0].color)), FillRect(rs[0], view)] + RectCommands(rs[1..], view)
  }

  function ArcCommands(cs: seq<CircleObject>, view: Viewport): (r: seq<Effect>)
    ensures |r| == 2 * |cs|
    ensures forall j :: 0 <= j < |cs| ==>
              r[2 * j] == MoveTo(cs[j], view) && r[2 * j + 1] == Arc(cs[j], view, ArcRadius)
    ensures forall e | e in r :: e.MoveTo? || e.Arc?
  {
    if |cs| == 0 then []
    else [MoveTo(cs[0], view), Arc(cs[0], view, ArcRadius)] + ArcCommands(cs[1..], view)
  }

  /** The circle block: nothing without a circle list; otherwise one path is
      begun, every circle is added to it in order, and the path is filled once
      in black. */
  function CircleCommands(circles: Option<seq<CircleObject>>, view: Viewport): (r: seq<Effect>)
    ensures circles.None? <==> r == []
    ensures circles.Some? ==>
              |r| == 2 * |circles.value| + 3 && r[0] == BeginPath &&
              r[1..|r| - 2] == ArcCommands(circles.value, view) &&
              r[|r| - 2] == SetFillStyle(Black) && r[|r| - 1] == Fill
    ensures forall e | e in r :: e.BeginPath? || e.MoveTo? || e.Arc? || e.SetFillStyle? || e.Fill?
  {
    match circles
    case None => []
    case Some(cs) => [BeginPath] + ArcCommands(cs, view) + [SetFillStyle(Black), Fill]
  }

  /** `renderInt` (with `clearCanvas`): the frame for the current state. It is
      what `render` draws and what the synchronization context runs. */
  function RenderInt(s: Renderer): (r: seq<Effect>)
    ensures IsFrame(r, s.canvasSize, s.viewport, s.payload)
    ensures forall e | e in r :: e.IsDrawCommand()
  {
    var clear := [ClearRect(0.0, 0.0, s.canvasSize.width, s.canvasSize.height)];
    match s.payload
    case None => clear
    case Some(p) =>
      var rects := RectCommands(RectsOf(p), s.viewport);
      var circles := CircleCommands(p.circles, s.viewport);
      clear + rects + circles
  }

  /** `IsFrame` leaves no freedom: two traces that both satisfy it for the same
      size, viewport and payload are equal. So the positional description above
      is a complete specification of `renderInt`. */
  lemma {:induction false} FrameIsUnique(a: seq<Effect>, b: seq<Effect>, size: Size, view: Viewport, payload: Option<Payload>)
    requires IsFrame(a, size, view, payload) && IsFrame(b, size, view, payload)
    ensures a == b
  {
    forall i | 0 <= i < |a|
      ensures a[i] == b[i]
    {
      if i > 0 {
        var p := payload.value;
        var rs := RectsOf(p);
        var k := 1 + 2 * |rs|;
        if i < k {
          var q := (i - 1) / 2;
          assert 0 <= q < |rs|;
          var r := rs[q];
          if (i - 1) % 2 == 0 {
            assert i == 1 + 2 * q;
            assert a[i] == SetFillStyle(Rgb(r.color)) == b[i];
          } else {
            assert i == 1 + 2 * q + 1;
            assert a[i] == FillRect(r, view) == b[i];
          }
        } else {
          var cs := p.circles.value;
          if i == k {
          } else if i < k + 1 + 2 * |cs| {
            var j := (i - k - 1) / 2;
            assert 0 <= j < |cs|;
            var c := cs[j];
            if (i - k - 1) % 2 == 0 {
              assert i == k + 1 + 2 * j;
              assert a[i] == MoveTo(c, view) == b[i];
            } else {
              assert i == k + 2 + 2 * j;
              assert a[i] == Arc(c, view, ArcRadius) == b[i];
            }
          } else if i == k + 1 + 2 * |cs| {
          } else {
            assert i == k + 2 + 2 * |cs|;
          }
        }
      }
    }
  }

  /** The rectangles a trace fills, in the order it fills them. */
  function FilledRectangles(cmds: seq<Effect>): seq<RectangleObject> {
    if |cmds| == 0 then []
    else (if cmds[0].FillRect? then [cmds[0].rect] else []) + FilledRectangles(cmds[1..])
  }

  lemma {:induction false} FilledRectanglesAppend(a: seq<Effect>, b: seq<Effect>)
    ensures FilledRectangles(a + b) == FilledRectangles(a) + FilledRectangles(b)
  {
    if |a| == 0 {
      assert a + b == b;
    } else {
      var head := if a[0].FillRect? then [a[0].rect] else [];
      assert (a + b)[0] == a[0];
      assert (a + b)[1..] == a[1..] + b;
      FilledRectanglesAppend(a[1..], b);
      assert FilledRectangles(a + b) == head + (FilledRectangles(a[1..]) + FilledRectangles(b));
      assert head + (FilledRectangles(a[1..]) + FilledRectangles(b))
          == (head + FilledRectangles(a[1..])) + FilledRectangles(b);
    }
  }

  lemma {:induction false} NoFilledRectangles(cmds: seq<Effect>)
    requires forall e | e in cmds :: !e.FillRect?
    ensures FilledRectangles(cmds) == []
  {
    if |cmds| > 0 {
      assert forall e | e in cmds[1..] :: e in cmds;
      NoFilledRectangles(cmds[1..]);
    }
  }

  lemma {:induction false} FilledRectCommands(rs: seq<RectangleObject>, view: Viewport)
    ensures FilledRectangles(RectCommands(rs, view)) == rs
  {
    if |rs| > 0 {
      var head := [SetFillStyle(Rgb(rs[0].color)), FillRect(rs[0], view)];
      FilledRectanglesAppend(head, RectCommands(rs[1..], view));
      FilledRectCommands(rs[1..], view);
      assert FilledRectangles(head) == [rs[0]] by {
        assert head[1..] == [FillRect(rs[0], view)];
        assert head[1..][1..] == [];
      }
    }
  }

  /** A frame fills exactly the payload's rectangles, one `fillRect` each, in
      payload order; with no payload, or no rectangles, it fills none. */
  lemma {:induction false} FrameFillsPayloadRectangles(s: Renderer)
    ensures FilledRectangles(RenderInt(s)) == (match s.payload case None => [] case Some(p) => RectsOf(p))
  {
    var clear := [ClearRect(0.0, 0.0, s.canvasSize.width, s.canvasSize.height)];
    NoFilledRectangles(clear);
    match s.payload
    case None =>
    case Some(p) =>
      var rects := RectCommands(RectsOf(p), s.viewport);
      var circles := CircleCommands(p.circles, s.viewport);
      assert RenderInt(s) == clear + rects + circles;
      FilledRectanglesAppend(clear + rects, circles);
      FilledRectanglesAppend(clear, rects);
      FilledRectCommands(RectsOf(p), s.viewport);
      NoFilledRectangles(circles);
  }

  // ---------------------------------------------------------------------------
  // Sequences of calls
  // ---------------------------------------------------------------------------

  /** A call on the adapter's control surface. */
  datatype Call =
    | SetVisibilityCall(visible: bool)
    | SetSizeCall(size: Rectangle)
    | SetViewportCall(viewport: Viewport)
    | RenderCall(time: real, payload: Payload)

  /** One call. It fails only for `setVisibility` on a canvas without a style;
      otherwise it changes exactly the field the call is about, requests a
      render for a size or viewport change, and draws one frame for `render`. */
  function Apply(s: Renderer, c: Call): (r: Result<Step, CanvasError>)
    ensures r.Success? ==> r.value.renderer.canvas == s.canvas
    ensures r.Failure? <==> c.SetVisibilityCall? && s.canvas.OffscreenCanvas?
    ensures r.Success? ==> Count(r.value.effects, RenderRequested) == RequestCount(c)
    ensures r.Success? ==> CountWhere(r.value.effects, IsClear) == FrameCount(c)
    ensures r.Success? && c.SetVisibilityCall? ==> r.value.renderer == s
    ensures c.SetSizeCall? ==>
              r.value.renderer == s.(canvasSize := SizeOf(c.size))
    ensures c.SetViewportCall? ==>
              r.value.renderer == s.(viewport := c.viewport)
    ensures c.RenderCall? ==>
              r.value.renderer == s.(payload := Some(c.payload))
    ensures r.Success? && c.SetVisibilityCall? ==>
              r.value.effects == [StyleVisibility(StyleFor(c.visible))]
    ensures c.SetSizeCall? ==>
              r.value.effects == [CanvasResized(c.size.width, c.size.height), RenderRequested]
    ensures c.SetViewportCall? ==> r.value.effects == [RenderRequested]
    ensures c.RenderCall? ==> IsFrame(r.value.effects, s.canvasSize, s.viewport, Some(c.payload))
  {
    match c
    case SetVisibilityCall(v) => SetVisibility(s, v)
    case SetSizeCall(size) =>
      var r := SetSize(s, size);
      NoClears(r.effects);
      Success(r)
    case SetViewportCall(viewport) =>
      var r := SetViewport(s, viewport);
      NoClears(r.effects);
      Success(r)
    case RenderCall(time, payload) =>
      var r := Render(s, time, payload);
      FrameHasOneClear(r.renderer);
      Success(r)
  }

  /** Render requests a call makes: one for a size or viewport change, none otherwise. */
  function RequestCount(c: Call): nat {
    if c.SetSizeCall? || c.SetViewportCall? then 1 else 0
  }

  /** Frames a call draws on the spot: one for `render`, none otherwise. */
  function FrameCount(c: Call): nat {
    if c.RenderCall? then 1 else 0
  }

  predicate IsClear(e: Effect) {
    e.ClearRect?
  }

  lemma {:induction false} NoClears(xs: seq<Effect>)
    requires forall e | e in xs :: !e.ClearRect?
    ensures CountWhere(xs, IsClear) == 0
  {
  }

  lemma {:induction false} FrameHasOneClear(s: Renderer)
    ensures CountWhere(RenderInt(s), IsClear) == 1
  {
    var clear := [ClearRect(0.0, 0.0, s.canvasSize.width, s.canvasSize.height)];
    assert CountWhere(clear, IsClear) == 1 by {
      assert clear[1..] == [];
    }
    match s.payload
    case None =>
    case Some(p) =>
      var rects := RectCommands(RectsOf(p), s.viewport);
      var circles := CircleCommands(p.circles, s.viewport);
      assert RenderInt(s) == clear + rects + circles;
      NoClears(rects);
      NoClears(circles);
      CountWhereAppend(clear + rects, circles, IsClear);
      CountWhereAppend(clear, rects, IsClear);
  }

  /** The calls in order, stopping at the first one that throws. */
  function Run(s: Renderer, calls: seq<Call>): Result<Step, CanvasError>
    decreases |calls|
  {
    if |calls| == 0 then Success(Step(s, []))
    else
      match Apply(s, calls[0])
      case Failure(e) => Failure(e)
      case Success(first) =>
        match Run(first.renderer, calls[1..])
        case Failure(e) => Failure(e)
        case Success(rest) => Success(Step(rest.renderer, first.effects + rest.effects))
  }

  predicate HasVisibilityCall(calls: seq<Call>) {
    exists i :: 0 <= i < |calls| && calls[i].SetVisibilityCall?
  }

  function RequestsOf(calls: seq<Call>): nat {
    if |calls| == 0 then 0 else RequestCount(calls[0]) + RequestsOf(calls[1..])
  }

  function FramesOf(calls: seq<Call>): nat {
    if |calls| == 0 then 0 else FrameCount(calls[0]) + FramesOf(calls[1..])
  }

  /** A sequence of calls throws exactly when the canvas has no style and one of
      the calls is `setVisibility`; the size, viewport and payload calls never throw. */
  lemma {:induction false} RunFailsOnlyWithoutStyle(s: Renderer, calls: seq<Call>)
    ensures Run(s, calls).Failure? <==> s.canvas.OffscreenCanvas? && HasVisibilityCall(calls)
    decreases |calls|
  {
    if |calls| > 0 {
      var a := Apply(s, calls[0]);
      if a.Success? {
        RunFailsOnlyWithoutStyle(a.value.renderer, calls[1..]);
        if HasVisibilityCall(calls[1..]) {
          var i :| 0 <= i < |calls[1..]| && calls[1..][i].SetVisibilityCall?;
          assert calls[i + 1].SetVisibilityCall?;
        }
        if HasVisibilityCall(calls) && !calls[0].SetVisibilityCall? {
          var i :| 0 <= i < |calls| && calls[i].SetVisibilityCall?;
          assert calls[1..][i - 1].SetVisibilityCall?;
        }
      } else {
        assert calls[0].SetVisibilityCall?;
      }
    }
  }

  /** Over a sequence of calls that does not throw, the synchronization context
      is asked for a render once per size or viewport change and never for
      `render`, and a frame is drawn on the spot once per `render` call and
      never for the other calls. */
  lemma {:induction false} RunCountsRequestsAndFrames(s: Renderer, calls: seq<Call>)
    requires Run(s, calls).Success?
    ensures Count(Run(s, calls).value.effects, RenderRequested) == RequestsOf(calls)
    ensures CountWhere(Run(s, calls).value.effects, IsClear) == FramesOf(calls)
    decreases |calls|
  {
    if |calls| > 0 {
      var first := Apply(s, calls[0]).value;
      var rest := Run(first.renderer, calls[1..]).value;
      RunCountsRequestsAndFrames(first.renderer, calls[1..]);
      CountAppend(first.effects, rest.effects, RenderRequested);
      CountWhereAppend(first.effects, rest.effects, IsClear);
    }
  }
}

=== FILE: pixijs.dfy ===
/** The retained-mode adapter `PixijsRendererRenderer`
    (examples/react-host/src/renderers/PixijsRenderer.ts).

    The adapter keeps a size, a viewport, a visibility flag and an optional
    payload. `setVisibility`, `setSize`, `setViewport` and `render` end in the
    guarded `scheduleRender`, and so does `renderPatches` when a payload is
    present (without one it returns at once). `scheduleRender` hands
    `renderInternal` to the render scheduler only when a payload is present and
    the adapter is visible. The scheduler itself is outside the model: handing
    it the callback is the trace entry `Scheduled`. Patch application is
    outside the model too and is a parameter `apply` of `RenderPatches`. */
module Pixijs {
  import opened Wrappers
  import opened ViewerTypes
  import opened Traces

  datatype EllipseShape = EllipseShape(x: real, y: real, width: real, height: real, color: Color)

  /** `ellipses` is required by the payload's declared type but tested before
      drawing, so its absence is modelled too. */
  datatype Payload = Payload(ellipses: Option<seq<EllipseShape>>)

  datatype Renderer = Renderer(size: Size, viewport: Viewport, isVisible: bool, payload: Option<Payload>)

  datatype Effect =
      /** `renderScheduler(this.renderInternal)` */
    | Scheduled
      /** `element.style.visibility` is assigned */
    | StyleVisibility(visibility: Visibility)
      /** `application.renderer.resize(width, height)` */
    | Resized(width: real, height: real)
      // Calls on the PIXI graphics object and renderer while drawing:
    | GraphicsClear
    | BeginFill(color: Color)
    | DrawEllipse(ellipse: EllipseShape, view: Viewport)
    | EndFill
    | StageRendered
  {
    /** True of the calls made on PIXI while drawing a frame. */
    predicate IsDrawCommand() {
      GraphicsClear? || BeginFill? || DrawEllipse? || EndFill? || StageRendered?
    }
  }

  /** The adapter after a call, with the effects the call emitted. */
  datatype Step = Step(renderer: Renderer, effects: seq<Effect>)

  datatype PickingOptions = PickingOptions(mode: string, position: Option<Point>)

  /** The state right after construction: empty size, identity viewport,
      visible, no payload. */
  const Initial: Renderer := Renderer(EmptySize, IdentityViewport, true, None)

  /** The guard of `scheduleRender`. */
  predicate Ready(s: Renderer) {
    s.payload.Some? && s.isVisible
  }

  /** The constructor's starting state; creating the PIXI application and
      attaching its view to the element are left out. */
  function Create(): (r: Renderer)
    ensures r.size.width == 0.0 && r.size.height == 0.0
    ensures r.viewport.position.x == 0.0 && r.viewport.position.y == 0.0 && r.viewport.zoom == 1.0
    ensures r.isVisible && r.payload.None?
    ensures !Ready(r)
  {
    Initial
  }

  /** `scheduleRender`, run on the state the mutator has just produced: it
      reaches the scheduler once when a payload is present and the adapter is
      visible, and otherwise does nothing; it never draws. */
  function ScheduleRender(s: Renderer): (r: seq<Effect>)
    ensures Count(r, Scheduled) == (if s.payload.Some? && s.isVisible then 1 else 0)
    ensures forall e | e in r :: e == Scheduled
  {
    if Ready(s) then [Scheduled] else []
  }

  // ---------------------------------------------------------------------------
  // The control surface
  // ---------------------------------------------------------------------------

  /** `setVisibility`: stores the flag, writes `visible`/`collapse` into the
      element style, then schedules; so it schedules exactly when the adapter
      becomes (or stays) visible while holding a payload. */
  function SetVisibility(s: Renderer, visible: bool): (r: Step)
    ensures r.renderer.isVisible == visible
    ensures r.renderer.size == s.size && r.renderer.viewport == s.viewport && r.renderer.payload == s.payload
    ensures |r.effects| >= 1 && r.effects[0].StyleVisibility?
    ensures r.effects[0].visibility == Visible <==> visible
    ensures Count(r.effects, Scheduled) == (if visible && s.payload.Some? then 1 else 0)
    ensures forall i | 1 <= i < |r.effects| :: r.effects[i] == Scheduled
  {
    var next := s.(isVisible := visible);
    Step(next, [StyleVisibility(StyleFor(visible))] + ScheduleRender(next))
  }

  /** `setSize`: keeps the width and height, resizes the PIXI renderer, then
      schedules when a payload is present and the adapter is visible. */
  function SetSize(s: Renderer, size: Rectangle): (r: Step)
    ensures r.renderer.size.width == size.width && r.renderer.size.height == size.height
    ensures r.renderer.viewport == s.viewport && r.renderer.isVisible == s.isVisible && r.renderer.payload == s.payload
    ensures |r.effects| >= 1 && r.effects[0] == Resized(size.width, size.height)
    ensures Count(r.effects, Scheduled) == (if s.payload.Some? && s.isVisible then 1 else 0)
    ensures forall i | 1 <= i < |r.effects| :: r.effects[i] == Scheduled
  {
    var next := s.(size := SizeOf(size));
    Step(next, [Resized(size.width, size.height)] + ScheduleRender(next))
  }

  /** `setViewport`: stores a shallow copy of the viewport, then schedules when a
      payload is present and the adapter is visible. */
  function SetViewport(s: Renderer, viewport: Viewport): (r: Step)
    ensures r.renderer.viewport == viewport
    ensures r.renderer.size == s.size && r.renderer.isVisible == s.isVisible && r.renderer.payload == s.payload
    ensures Count(r.effects, Scheduled) == (if s.payload.Some? && s.isVisible then 1 else 0)
    ensures forall e | e in r.effects :: e == Scheduled
  {
    var next := s.(viewport := viewport);
    Step(next, ScheduleRender(next))
  }

  /** `render`: replaces the payload and schedules once if visible, not at all
      if invisible. */
  function Render(s: Renderer, payload: Payload): (r: Step)
    ensures r.renderer.payload == Some(payload)
    ensures r.renderer.size == s.size && r.renderer.viewport == s.viewport && r.renderer.isVisible == s.isVisible
    ensures Count(r.effects, Scheduled) == (if s.isVisible then 1 else 0)
    ensures forall e | e in r.effects :: e == Scheduled
  {
    var next := s.(payload := Some(payload));
    Step(next, ScheduleRender(next))
  }

  /** `renderPatches`: without a payload, nothing at all happens; with one, the
      payload becomes `apply(payload, patches)` and the adapter schedules if
      visible. `apply` stands for the library's `applyPatches`. */
  function RenderPatches<P>(s: Renderer, patches: seq<P>, apply: (Payload, seq<P>) -> Payload): (r: Step)
    ensures s.payload.None? ==> r.renderer == s && r.effects == []
    ensures s.payload.Some? ==> r.renderer.payload == Some(apply(s.payload.value, patches))
    ensures r.renderer.size == s.size && r.renderer.viewport == s.viewport && r.renderer.isVisible == s.isVisible
    ensures Count(r.effects, Scheduled) == (if s.payload.Some? && s.isVisible then 1 else 0)
    ensures forall e | e in r.effects :: e == Scheduled
  {
    if s.payload.Some? then
      var next := s.(payload := Some(apply(s.payload.value, patches)));
      Step(next, ScheduleRender(next))
    else
      Step(s, [])
  }

  /** `pickObjects`: a fixed answer while visible, the empty answer while
      invisible, whatever the options. */
  function PickObjects(s: Renderer, options: PickingOptions): (r: seq<string>)
    ensures r == [] <==> !s.isVisible
    ensures s.isVisible ==> r == ["a", "b"]
  {
    if s.isVisible then ["a", "b"] else []
  }

  // ---------------------------------------------------------------------------
  // Drawing
  // ---------------------------------------------------------------------------

  /** Fill, draw and end the fill of each ellipse, in order. */
  function EllipseCommands(es: seq<EllipseShape>, view: Viewport): (r: seq<Effect>)
    ensures |r| == 3 * |es|
    ensures Scheduled !in r
  {
    if |es| == 0 then []
    else [BeginFill(es[0].color), DrawEllipse(es[0], view), EndFill] + EllipseCommands(es[1..], view)
  }

  lemma {:induction false} EllipseCommandsAt(es: seq<EllipseShape>, view: Viewport, i: nat)
    requires i < |es|
    ensures EllipseCommands(es, view)[3 * i] == BeginFill(es[i].color)
    ensures EllipseCommands(es, view)[3 * i + 1] == DrawEllipse(es[i], view)
    ensures EllipseCommands(es, view)[3 * i + 2] == EndFill
  {
    if i > 0 {
      EllipseCommandsAt(es[1..], view, i - 1);
      var r := EllipseCommands(es, view);
      var tail := EllipseCommands(es[1..], view);
      assert r == [BeginFill(es[0].color), DrawEllipse(es[0], view), EndFill] + tail;
      assert r[3 * i] == tail[3 * (i - 1)];
      assert r[3 * i + 1] == tail[3 * (i - 1) + 1];
      assert r[3 * i + 2] == tail[3 * (i - 1) + 2];
    }
  }

  lemma {:induction false} FrameShape(es: seq<EllipseShape>, view: Viewport, ellipses: Option<seq<EllipseShape>>)
    requires es == ellipses.GetOr([])
    ensures IsFrame([GraphicsClear] + EllipseCommands(es, view) + [StageRendered], view, ellipses)
  {
    var body := EllipseCommands(es, view);
    var r := [GraphicsClear] + body + [StageRendered];
    forall i | 0 <= i < |es|
      ensures r[1 + 3 * i] == BeginFill(es[i].color)
      ensures r[2 + 3 * i] == DrawEllipse(es[i], view)
      ensures r[3 + 3 * i] == EndFill
    {
      EllipseCommandsAt(es, view, i);
      assert r[1 + 3 * i] == body[3 * i];
      assert r[2 + 3 * i] == body[3 * i + 1];
      assert r[3 + 3 * i] == body[3 * i + 2];
    }
  }

  /** The shape of a drawn frame, position by position: clear the graphics,
      fill and draw each ellipse in order, then render the stage once. */
  ghost predicate IsFrame(cmds: seq<Effect>, view: Viewport, ellipses: Option<seq<EllipseShape>>) {
    var es := ellipses.GetOr([]);
    && |cmds| == 2 + 3 * |es|
    && cmds[0] == GraphicsClear
    && (forall i :: 0 <= i < |es| ==>
          && cmds[1 + 3 * i] == BeginFill(es[i].color)
          && cmds[2 + 3 * i] == DrawEllipse(es[i], view)
          && cmds[3 + 3 * i] == EndFill)
    && cmds[|cmds| - 1] == StageRendered
  }

  /** `renderInternal`, as the scheduler runs it on the current state: nothing
      without a payload, a full frame otherwise. The frame time and the size
      play no part. */
  function RenderInternal(s: Renderer, time: real): (r: seq<Effect>)
    ensures s.payload.None? ==> r == []
    ensures s.payload.Some? ==> IsFrame(r, s.viewport, s.payload.value.ellipses)
    ensures Scheduled !in r
  {
    match s.payload
    case None => []
    case Some(p) =>
      var es := p.ellipses.GetOr([]);
      FrameShape(es, s.viewport, p.ellipses);
      [GraphicsClear] + EllipseCommands(es, s.viewport) + [StageRendered]
  }

  /** `IsFrame` leaves no freedom: it fixes every command of the frame. */
  lemma {:induction false} FrameIsUnique(a: seq<Effect>, b: seq<Effect>, view: Viewport, ellipses: Option<seq<EllipseShape>>)
    requires IsFrame(a, view, ellipses) && IsFrame(b, view, ellipses)
    ensures a == b
  {
    var es := ellipses.GetOr([]);
    forall i | 0 <= i < |a|
      ensures a[i] == b[i]
    {
      if 0 < i < |a| - 1 {
        var q := (i - 1) / 3;
        assert 0 <= q < |es|;
        var e := es[q];
        if (i - 1) % 3 == 0 {
          assert i == 1 + 3 * q;
          assert a[i] == BeginFill(e.color) == b[i];
        } else if (i - 1) % 3 == 1 {
          assert i == 2 + 3 * q;
          assert a[i] == DrawEllipse(e, view) == b[i];
        } else {
          assert i == 3 + 3 * q;
          assert a[i] == EndFill == b[i];
        }
      }
    }
  }

  // ---------------------------------------------------------------------------
  // Sequences of calls
  // ---------------------------------------------------------------------------

  /** A call on the adapter's control surface; `P` is the patch type. */
  datatype Call<P> =
    | SetVisibilityCall(visible: bool)
    | SetSizeCall(size: Rectangle)
    | SetViewportCall(viewport: Viewport)
    | RenderCall(payload: Payload)
    | RenderPatchesCall(patches: seq<P>)

  /** One call. Whatever the call, it schedules at most once, and it schedules
      exactly when the state it leaves has a payload and is visible. A payload
      is present afterwards exactly when one was present before or the call is
      `render`; the visibility flag changes only through `setVisibility`. Each
      call changes exactly the field it is about: the flag, the size, the
      viewport, the payload, or (when one exists) the payload patched in place. */
  function Apply<P>(s: Renderer, c: Call<P>, apply: (Payload, seq<P>) -> Payload): (r: Step)
    ensures Count(r.effects, Scheduled) <= 1
    ensures Scheduled in r.effects <==> Ready(r.renderer)
    ensures r.renderer.payload.Some? <==> s.payload.Some? || c.RenderCall?
    ensures r.renderer.isVisible == (if c.SetVisibilityCall? then c.visible else s.isVisible)
    ensures forall e | e in r.effects :: !e.IsDrawCommand()
    ensures c.SetVisibilityCall? ==>
              |r.effects| >= 1 && r.effects[0] == StyleVisibility(StyleFor(c.visible))
    ensures c.SetSizeCall? ==> |r.effects| >= 1 && r.effects[0] == Resized(c.size.width, c.size.height)
    ensures c.SetVisibilityCall? ==> r.renderer == s.(isVisible := c.visible)
    ensures c.SetSizeCall? ==> r.renderer == s.(size := SizeOf(c.size))
    ensures c.SetViewportCall? ==> r.renderer == s.(viewport := c.viewport)
    ensures c.RenderCall? ==> r.renderer == s.(payload := Some(c.payload))
    ensures c.RenderPatchesCall? ==>
              r.renderer == s.(payload := if s.payload.Some? then Some(apply(s.payload.value, c.patches)) else None)
  {
    match c
    case SetVisibilityCall(v) => SetVisibility(s, v)
    case SetSizeCall(size) => SetSize(s, size)
    case SetViewportCall(viewport) => SetViewport(s, viewport)
    case RenderCall(payload) => Render(s, payload)
    case RenderPatchesCall(patches) => RenderPatches(s, patches, apply)
  }

  /** The calls in order, effects concatenated. */
  function Run<P>(s: Renderer, calls: seq<Call<P>>, apply: (Payload, seq<P>) -> Payload): Step
    decreases |calls|
  {
    if |calls| == 0 then Step(s, [])
    else
      var first := Apply(s, calls[0], apply);
      var rest := Run(first.renderer, calls[1..], apply);
      Step(rest.renderer, first.effects + rest.effects)
  }

  predicate HasRenderCall<P>(calls: seq<Call<P>>) {
    exists i :: 0 <= i < |calls| && calls[i].RenderCall?
  }

  /** The flag given by the last `setVisibility` call, or `initial` when there is none. */
  function LastVisibility<P>(calls: seq<Call<P>>, initial: bool): bool {
    if |calls| == 0 then initial
    else if calls[|calls| - 1].SetVisibilityCall? then calls[|calls| - 1].visible
    else LastVisibility(calls[..|calls| - 1], initial)
  }

  /** Until the first `render`, patches and size, viewport and visibility
      changes leave the payload absent and never reach the scheduler: patches
      never define the initial state. */
  lemma {:induction false} NoScheduleBeforeFirstRender<P>(s: Renderer, calls: seq<Call<P>>, apply: (Payload, seq<P>) -> Payload)
    requires s.payload.None? && !HasRenderCall(calls)
    ensures Run(s, calls, apply).renderer.payload.None?
    ensures Scheduled !in Run(s, calls, apply).effects
    decreases |calls|
  {
    if |calls| > 0 {
      var first := Apply(s, calls[0], apply);
      assert forall i | 0 <= i < |calls| :: !calls[i].RenderCall?;
      assert !HasRenderCall(calls[1..]) by {
        forall i | 0 <= i < |calls[1..]| ensures !calls[1..][i].RenderCall? {
          assert calls[1..][i] == calls[i + 1];
        }
      }
      NoScheduleBeforeFirstRender(first.renderer, calls[1..], apply);
      assert Count(first.effects, Scheduled) == 0;
    }
  }

  /** A payload is present after a sequence of calls exactly when one was
      present before or the sequence contains a `render`. */
  lemma {:induction false} PayloadPresentAfterRun<P>(s: Renderer, calls: seq<Call<P>>, apply: (Payload, seq<P>) -> Payload)
    ensures Run(s, calls, apply).renderer.payload.Some? <==> s.payload.Some? || HasRenderCall(calls)
    decreases |calls|
  {
    if |calls| > 0 {
      var first := Apply(s, calls[0], apply);
      PayloadPresentAfterRun(first.renderer, calls[1..], apply);
      if HasRenderCall(calls[1..]) {
        var i :| 0 <= i < |calls[1..]| && calls[1..][i].RenderCall?;
        assert calls[i + 1].RenderCall?;
      }
      if HasRenderCall(calls) && !calls[0].RenderCall? {
        var i :| 0 <= i < |calls| && calls[i].RenderCall?;
        assert calls[1..][i - 1].RenderCall?;
      }
    }
  }

  /** A sequence of calls reaches the scheduler at most once per call. */
  lemma {:induction false} ScheduledAtMostOncePerCall<P>(s: Renderer, calls: seq<Call<P>>, apply: (Payload, seq<P>) -> Payload)
    ensures Count(Run(s, calls, apply).effects, Scheduled) <= |calls|
    decreases |calls|
  {
    if |calls| > 0 {
      var first := Apply(s, calls[0], apply);
      var rest := Run(first.renderer, calls[1..], apply);
      ScheduledAtMostOncePerCall(first.renderer, calls[1..], apply);
      CountAppend(first.effects, rest.effects, Scheduled);
    }
  }

  /** Running `a` then `b` is running `a + b`. */
  lemma {:induction false} RunAppend<P>(s: Renderer, a: seq<Call<P>>, b: seq<Call<P>>, apply: (Payload, seq<P>) -> Payload)
    ensures Run(s, a + b, apply).renderer == Run(Run(s, a, apply).renderer, b, apply).renderer
    ensures Run(s, a + b, apply).effects == Run(s, a, apply).effects + Run(Run(s, a, apply).renderer, b, apply).effects
    decreases |a|
  {
    if |a| == 0 {
      assert a + b == b;
    } else {
      var first := Apply(s, a[0], apply);
      assert (a + b)[0] == a[0];
      assert (a + b)[1..] == a[1..] + b;
      RunAppend(first.renderer, a[1..], b, apply);
      var mid := Run(first.renderer, a[1..], apply);
      var tail := Run(mid.renderer, b, apply);
      assert first.effects + (mid.effects + tail.effects) == (first.effects + mid.effects) + tail.effects;
    }
  }

  /** After a sequence of calls the adapter is visible exactly as the last
      `setVisibility` call said (or as before, if there was none), so picking
      answers `["a", "b"]` or the empty answer accordingly. */
  lemma {:induction false} PickingFollowsLastVisibility<P>(s: Renderer, calls: seq<Call<P>>, apply: (Payload, seq<P>) -> Payload, options: PickingOptions)
    ensures Run(s, calls, apply).renderer.isVisible == LastVisibility(calls, s.isVisible)
    ensures PickObjects(Run(s, calls, apply).renderer, options) == (if LastVisibility(calls, s.isVisible) then ["a", "b"] else [])
    decreases |calls|
  {
    if |calls| > 0 {
      var init := calls[..|calls| - 1];
      var last := calls[|calls| - 1];
      assert calls == init + [last];
      RunAppend(s, init, [last], apply);
      PickingFollowsLastVisibility(s, init, apply, options);
      var mid := Run(s, init, apply).renderer;
      assert Run(mid, [last], apply).renderer == Apply(mid, last, apply).renderer by {
        assert [last][1..] == [];
      }
    }
  }
}

=== FILE: traces.dfy ===
/** Counting entries of an effect trace. */
module Traces {

  /** Number of occurrences of `x` in `xs`. */
  function Count<T(==)>(xs: seq<T>, x: T): (n: nat)
    ensures n <= |xs|
    ensures n == 0 <==> x !in xs
  {
    if |xs| == 0 then 0
    else (if xs[0] == x then 1 else 0) + Count(xs[1..], x)
  }

  lemma {:induction false} CountAppend<T>(a: seq<T>, b: seq<T>, x: T)
    ensures Count(a + b, x) == Count(a, x) + Count(b, x)
  {
    if |a| == 0 {
      assert a + b == b;
    } else {
      assert (a + b)[1..] == a[1..] + b;
      CountAppend(a[1..], b, x);
    }
  }

  /** Number of entries of `xs` that satisfy `p`. */
  function CountWhere<T>(xs: seq<T>, p: T -> bool): (n: nat)
    ensures n <= |xs|
    ensures n == 0 <==> forall i :: 0 <= i < |xs| ==> !p(xs[i])
  {
    if |xs| == 0 then 0
    else (if p(xs[0]) then 1 else 0) + CountWhere(xs[1..], p)
  }

  lemma {:induction false} CountWhereAppend<T>(a: seq<T>, b: seq<T>, p: T -> bool)
    ensures CountWhere(a + b, p) == CountWhere(a, p) + CountWhere(b, p)
  {
    if |a| == 0 {
      assert a + b == b;
    } else {
      assert (a + b)[1..] == a[1..] + b;
      CountWhereAppend(a[1..], b, p);
    }
  }
}

=== FILE: viewer_types.dfy ===
/** Geometry and style values shared by the renderer adapters.
    JavaScript `number`s are modelled as `real`; the adapters only store and
    forward them, so no floating-point rounding is involved in what is modelled. */
module ViewerTypes {

  datatype Point = Point(x: real, y: real)

  datatype Size = Size(width: real, height: real)

  /** The argument of `setSize`: a rectangle, of which only the size is kept. */
  datatype Rectangle = Rectangle(x: real, y: real, width: real, height: real)

  datatype Viewport = Viewport(position: Point, zoom: real)

  datatype Color = Color(r: real, g: real, b: real)

  /** Values written to an element's `style.visibility`. */
  datatype Visibility = Visible | Collapse

  /** Both adapters start from an empty size ... */
  const EmptySize: Size := Size(0.0, 0.0)

  /** ... and from the identity viewport: origin position, zoom 1. */
  const IdentityViewport: Viewport := Viewport(Point(0.0, 0.0), 1.0)

  /** The style value a visibility flag is mapped to: `visible` or `collapse`. */
  function StyleFor(visible: bool): (v: Visibility)
    ensures v == Visible <==> visible
  {
    if visible then Visible else Collapse
  }

  /** The size part of a rectangle. */
  function SizeOf(r: Rectangle): (s: Size)
    ensures s.width == r.width && s.height == r.height
  {
    Size(r.width, r.height)
  }
}

=== FILE: wrappers.dfy ===
/** Failure-carrying datatypes used by the renderer models: an optional value
    (the source's `null`/`undefined` fields) and a value-or-error result (the
    source's thrown errors). */
module Wrappers {

  datatype Option<+T> = None | Some(value: T) {

    /** The wrapped value, or `default` when there is none. */
    function GetOr(default: T): T {
      match this
      case Some(v) => v
      case None => default
    }
  }

  datatype Result<+R, +E> = Success(value: R) | Failure(error: E)
}
